=== FILE: README.md ===
# Ownership-checked bookkeeping core of a personal-finance backend

A Dafny model of the business rules of the `financas` Spring backend: users
own categories and income/expense transactions; every transaction update
and delete, and every category update and delete, is guarded by "the record
exists" and then "the acting user owns it"; creating a transaction is
guarded the same way on the category it refers to; and a user's balance is
the exact sum of their income minus the exact sum of their expenses.
Creating a category and registering a user check only their input fields:
`salvar` writes under whatever id it is given, so saving under another
user's category id takes that category over
(`CategoryService.SaveTakesOverExistingId`).

The model is functional:

- the repositories are finite maps, `id -> Transaction` and `id -> Category`
  (`Domain.Store`), plus `id -> Account` for registration; a record's id is
  its key, and a user is reduced to an opaque id;
- every operation is a pure function. The reads (`ListByUser`,
  `GetBalance`, `CategoryService.List`, `FindById`, `FetchById`,
  `ListForUser`) return plain values and `CategoryService.Delete` returns the
  new map; every other mutating operation goes from (store, acting user,
  payload) to a `Results.Step`: the store it leaves behind together with either a value or
  an error kind (`NotFound`, `Forbidden`, `IllegalArgument(reason)`,
  `Unclassified`). A failing step always returns the store it was given, so
  "nothing is saved on failure" is a stated and proved property;
- `BigDecimal` amounts are Dafny `real`s, so sums and differences are exact;
  Java `null` fields are `Option`s;
- the blank test `s == null || s.trim().isEmpty()` uses an exact model of
  `String.trim` (strip characters up to U+0020 at both ends), proved equal to
  "every character is at most U+0020";
- `SUM(t.valor)` is a fold over the matching rows in increasing id order,
  proved independent of that order (`TotalRemove`) and characterised by how it
  changes when one row is added (`SumInsert`);
- the cross-entity invariant `Domain.Consistent` (a transaction's owner is the
  owner of its category, for every category still present) is proved to be
  preserved by every transaction operation, by category rename and delete,
  by category creation when the new id is one no transaction refers to
  (`CategoryController.CreatePreservesConsistency`), and by `salvar` when it
  takes over no other user's category and writes a new id only if no
  transaction refers to it (`CategoryService.SavePreservesConsistency`).

Modules: `Results` (error kinds, `Result`, `Step`), `Text` (trim and the
blank test), `Domain` (entities, payloads, store, invariant),
`TransactionRepository`, `TransactionService`, `CategoryService`,
`CategoryController`, `UserService`, one per source file.

Three behaviours of the code are worth stating explicitly:

- a missing category on the category update and delete endpoints raises a
  plain `RuntimeException`, not the not-found exception the transaction
  service uses; the model returns `Unclassified` there, and `NotFound` only
  where the code raises `ResourceNotFoundException` or builds a 404 itself;
- a duplicate username raises the same `IllegalArgumentException` as the
  blank-field checks; the model returns `IllegalArgument(UsernameTaken)`;
- the sum query skips rows whose amount is null and is null (read as zero)
  when no matching row has an amount, as SQL's `SUM` does; the service lets
  an update store an absent amount (it copies the payload's amount even when
  it is null), and whether the persistence mapping accepts that is not part
  of this model.

## Model

| member | source | states |
|---|---|---|
| Text.TrimEmptyIffAllTrimmable | src/main/java/com/example/financas/service/CategoriaService.java:30 | `trim()` leaves an empty string exactly when every character of the input is at most U+0020 |
| Text.IsBlankIffTrimEmpty | src/main/java/com/example/financas/service/UserService.java:26-32 | the blank test used by every validation holds of a present string exactly when `trim()` leaves it empty |
| Text.Trim | src/main/java/com/example/financas/service/CategoriaService.java:30 | `trim()` returns a contiguous slice of its input such that everything removed before and after it is at most U+0020, and the slice itself neither starts nor ends with such a character |
| TransactionRepository.FindByUser | src/main/java/com/example/financas/repository/TransacaoRepository.java:19 | `findByUser(u)` returns exactly the rows whose owner is `u`, unchanged |
| TransactionRepository.FindByIdAndUser | src/main/java/com/example/financas/repository/TransacaoRepository.java:21 | `findByIdAndUser(id, u)` returns a row only when the id exists and `u` owns it, and then that row |
| TransactionRepository.FindByIdAndUserIsOwnedLookup | src/main/java/com/example/financas/repository/TransacaoRepository.java:19-21 | the id-and-owner lookup agrees with a lookup in the owner's rows |
| TransactionRepository.SumByKindAndUser | src/main/java/com/example/financas/repository/TransacaoRepository.java:27-28 | the sum is absent exactly when no row of that kind and owner carries an amount |
| TransactionRepository.TotalRemove | src/main/java/com/example/financas/repository/TransacaoRepository.java:27 | any row can be taken out of the sum first: the order of addition does not matter |
| TransactionRepository.SumInsert | src/main/java/com/example/financas/repository/TransacaoRepository.java:27-28 | adding a row changes the sum by exactly that row's amount when it matches kind and owner, and not at all otherwise (null plus x is x) |
| TransactionRepository.SumIgnoresOthers | src/main/java/com/example/financas/repository/TransacaoRepository.java:27 | a row of another user, of the other kind or without an amount never changes the sum |
| TransactionRepository.SumOnlyOwnRows | src/main/java/com/example/financas/repository/TransacaoRepository.java:27 | the sum for `u` equals the sum over `u`'s rows alone |
| TransactionRepository.SumEmpty | src/main/java/com/example/financas/repository/TransacaoRepository.java:27-28 | the sum over no rows is null |
| TransactionRepository.SumOrZeroInsert | src/main/java/com/example/financas/service/TransacaoService.java:102-107 | read with `orElse(ZERO)`, the sum grows by exactly the new row's contribution |
| TransactionRepository.SumOrZeroReplace | src/main/java/com/example/financas/service/TransacaoService.java:102-107 | replacing a row changes the zero-defaulted sum by the new row's contribution minus the old one's |
| TransactionService.ListByUser | src/main/java/com/example/financas/service/TransacaoService.java:29-31 | the listing holds exactly the acting user's transactions |
| TransactionService.Create | src/main/java/com/example/financas/service/TransacaoService.java:33-47 | NotFound exactly when the category id is absent, Forbidden exactly when it belongs to someone else, succeeds exactly when the category exists and the actor owns it; store untouched on failure; on success exactly one new row, owned by the actor, pointing at the stored category, which the actor owns |
| TransactionService.Update | src/main/java/com/example/financas/service/TransacaoService.java:49-83 | missing id gives NotFound whatever the payload; a non-owner gets Forbidden; a different category must exist and belong to the actor; succeeds exactly when all these guards pass; on success description, amount, date and kind are the payload's (absent ones included), the owner is unchanged and only that row changes |
| TransactionService.Delete | src/main/java/com/example/financas/service/TransacaoService.java:85-98 | NotFound exactly when the id is absent, Forbidden exactly when it belongs to someone else, success exactly when the actor owns it, and then exactly that row is removed |
| TransactionService.GetBalance | src/main/java/com/example/financas/service/TransacaoService.java:100-113 | net is income minus expense, and a user without transactions gets (0, 0, 0) |
| TransactionService.CreateIgnoresSpoofedFields | src/main/java/com/example/financas/service/TransacaoService.java:43-44 | payloads differing only in the claimed owner or the nested category's fields other than its id give the same result |
| TransactionService.CreatePreservesConsistency | src/main/java/com/example/financas/service/TransacaoService.java:38-44 | after `criar` every transaction still belongs to the owner of its category |
| TransactionService.UpdatePreservesConsistency | src/main/java/com/example/financas/service/TransacaoService.java:55-74 | after `atualizar` every transaction still belongs to the owner of its category |
| TransactionService.DeletePreservesConsistency | src/main/java/com/example/financas/service/TransacaoService.java:85-98 | after `deletar` every transaction still belongs to the owner of its category |
| TransactionService.UpdateKeepingCategoryNeedsNoLookup | src/main/java/com/example/financas/service/TransacaoService.java:61-62 | with no category or the same category id in the payload, the update's result does not depend on the category table |
| TransactionService.FailedUpdateLeavesRecord | src/main/java/com/example/financas/service/TransacaoService.java:51-74 | a failed update leaves the stored record as it was (a per-record reading of `Update`'s no-write-on-failure clause) |
| TransactionService.BalanceOnlyOwnRows | src/main/java/com/example/financas/service/TransacaoService.java:100-107 | a user's balance is computed from that user's rows alone |
| TransactionService.BalanceAfterCreate | src/main/java/com/example/financas/service/TransacaoService.java:100-113 | after a successful create, each user's income, expense and net move by exactly the new row's contribution; other users' balances do not move |
| TransactionService.BalanceAfterUpdate | src/main/java/com/example/financas/service/TransacaoService.java:100-113 | after a successful update, the balance moves by the new row's contribution minus the old row's |
| TransactionService.BalanceAfterDelete | src/main/java/com/example/financas/service/TransacaoService.java:100-113 | after a successful delete, the balance loses exactly the removed row's contribution |
| TransactionService.BalanceExample | src/test/java/com/example/financas/service/TransacaoServiceTest.java:281-311 | income 7000.00 and expense 2500.50 give the balance (7000.00, 2500.50, 4499.50) exactly |
| CategoryService.List | src/main/java/com/example/financas/service/CategoriaService.java:21-23 | `listar(u)` returns exactly the categories owned by `u` |
| CategoryService.FindById | src/main/java/com/example/financas/service/CategoriaService.java:25-27 | `buscarPorId` returns a value exactly when the id is stored, with no ownership filter |
| CategoryService.Save | src/main/java/com/example/financas/service/CategoriaService.java:29-37 | fails exactly on a null or blank name, writing nothing, and succeeds on every other name; then it stores the name with the owner forced to the given user and leaves every other row alone |
| CategoryService.Delete | src/main/java/com/example/financas/service/CategoriaService.java:39-41 | removes that id and leaves every other category unchanged |
| CategoryService.SaveRejectsNullOrTrimEmpty | src/main/java/com/example/financas/service/CategoriaService.java:30-32 | `salvar` fails exactly when the name is null or `trim()` leaves it empty |
| CategoryService.ListAfterSave | src/main/java/com/example/financas/service/CategoriaService.java:21-37 | after a successful save, `listar(u)` shows the saved category with its new name, no other user lists it, and listings are otherwise unchanged |
| CategoryService.SaveTakesOverExistingId | src/main/java/com/example/financas/service/CategoriaService.java:34-36 | saving under an existing id owned by another user succeeds and re-owns that category to the saving user |
| CategoryService.SaveIgnoresPayloadOwner | src/main/java/com/example/financas/service/CategoriaService.java:34-36 | the owner carried by the payload has no effect |
| CategoryService.SavePreservesConsistency | src/main/java/com/example/financas/service/CategoriaService.java:29-37 | saving keeps transactions with their category's owner, provided it does not write over another user's category or reuse an id a transaction refers to |
| CategoryService.DeletePreservesConsistency | src/main/java/com/example/financas/service/CategoriaService.java:39-41 | deleting a category keeps the invariant |
| CategoryController.ListForUser | src/main/java/com/example/financas/controller/CategoriaController.java:24-29 | the listing holds exactly the acting user's categories, with their stored values |
| CategoryController.FetchById | src/main/java/com/example/financas/controller/CategoriaController.java:31-36 | NotFound exactly when the id is absent; success exactly when it is present, with the stored category, whoever asks |
| CategoryController.FetchIgnoresActingUser | src/main/java/com/example/financas/controller/CategoriaController.java:31-36 | the single-category read gives every user the same answer |
| CategoryController.Create | src/main/java/com/example/financas/controller/CategoriaController.java:38-44 | fails exactly on a blank name, and then with the blank-name `IllegalArgumentException`; otherwise adds one category with the payload's name, owned by the acting user |
| CategoryController.Rename | src/main/java/com/example/financas/controller/CategoriaController.java:46-62 | a missing id is an unclassified error, a non-owner gets Forbidden, then a blank name is rejected; succeeds exactly when the actor owns it and the name is not blank; no write on failure; on success only the name of that one category changes |
| CategoryController.Remove | src/main/java/com/example/financas/controller/CategoriaController.java:64-79 | a missing id is an unclassified error, a non-owner gets Forbidden and nothing is removed, the owner always succeeds and removes exactly that id |
| CategoryController.RenameKeepsOwners | src/main/java/com/example/financas/controller/CategoriaController.java:58-61 | a rename never changes any category's owner |
| CategoryController.RenamePreservesConsistency | src/main/java/com/example/financas/controller/CategoriaController.java:46-62 | renaming keeps every transaction with its category's owner |
| CategoryController.CreatePreservesConsistency | src/main/java/com/example/financas/controller/CategoriaController.java:38-44 | creating a category under an unused id keeps the invariant |
| CategoryController.RemovePreservesConsistency | src/main/java/com/example/financas/controller/CategoriaController.java:64-79 | removing a category keeps the invariant |
| UserService.Register | src/main/java/com/example/financas/service/UserService.java:25-44 | a blank username is rejected first, then a blank password, then a username already present (exact comparison); succeeds exactly when none of the three applies; no write on failure; success adds exactly one account with that username and the encoded password |
| UserService.RegisterSucceedsIff | src/main/java/com/example/financas/service/UserService.java:26-36 | registration succeeds exactly when both fields are present and non-empty after `trim()` and the username is free |
| UserService.RegisterKeepsUsernamesDistinct | src/main/java/com/example/financas/service/UserService.java:34-43 | usernames stay pairwise distinct after registration |

## Left out

- Token issuance and validation, the request filter and the security context: foreign cryptography and framework plumbing; the acting user is an explicit parameter instead.
- HTTP wiring: the transaction and auth controllers only delegate, and the mapping of error kinds to status codes and timestamps in the global exception handler is not modelled.
- Startup seeding, console output, the balance DTO (a `Balance` triple here) and the category repository (a map here).
- Password hashing: the encoder is a function parameter about which nothing is assumed.
- Concurrency and transactional isolation: each operation is one atomic step.
- Id generation: new rows take a `newId` parameter that must not be in use.
- Amount positivity, date defaulting and category-delete cascading: the `Transacao` and `Categoria` entity classes are not part of this model, so no such rule is enforced.
- `UserService.buscarPorId`, `findByTipo` and `findByNome` (lookups) and `UserService.deletar` (an unguarded delete by id): outside the ownership rules.
- TransactionService.Create: the payload carries no id of its own; the row is written under a fresh `newId`. In the source the deserialised entity, with whatever id the client sent, goes straight to `save`, which with an id already in the table would plausibly overwrite that row and re-own it to the actor. This depends on the entity classes and the persistence layer, which are not part of this model, so the model does not promise anything about a client-supplied id.
- CategoryController.Create: likewise writes under a fresh `newId` and ignores any id the client sent; the takeover that `salvar` performs when it is given an existing id of another user is stated by `CategoryService.SaveTakesOverExistingId`.
- TransactionService.Create: requires the payload to carry a category, because the source dereferences its id and would fail with a null-pointer exception otherwise.
- TransactionService.Update: a payload category whose id is null is not representable (category ids are never null here); the source would fail with a null-pointer exception.
- CategoryService.Save: writes under the id it is given; how the persistence layer treats a client-supplied id that is not in the table is not modelled.
- CategoryService.Delete: removing an absent id is a no-op; whether the persistence layer raises an error for it depends on the library version.

=== FILE: category_controller.dfy ===
/** `CategoriaController`: the guard-and-mutate logic of the category
    endpoints, as operations on the category table.

    Unlike the transaction service, a missing category on update or delete
    raises a plain `RuntimeException` (an unclassified error, reported as
    500), not the not-found exception; only the single-category read reports
    NotFound. The ownership check answers Forbidden, and for a rename it runs
    before the name validation of `salvar`. */
module CategoryController {

  import opened Results
  import opened Domain
  import Text
  import Service = CategoryService

  /** `listarCategoriasDoUsuario`: the acting user's categories. */
  function ListForUser(cats: Categories, u: UserId): (r: Categories)
    ensures forall id :: id in r <==> id in cats && cats[id].owner == u
    ensures forall id | id in r :: r[id] == cats[id]
  {
    Service.List(cats, u)
  }

  /** `buscarPorId(id, user)`: any existing category, whoever asks. */
  function FetchById(cats: Categories, u: UserId, id: CategoryId): (r: Result<Category>)
    ensures r == Err(NotFound) <==> id !in cats
    ensures r.Ok? <==> id in cats
    ensures r.Ok? ==> id in cats && r.value == cats[id]
  {
    match Service.FindById(cats, id)
    case Some(c) => Ok(c)
    case None => Err(NotFound)
  }

  /** `criarCategoria(categoria, user)`: `salvar` under the id the database
      assigns. */
  function Create(cats: Categories, u: UserId, p: CategoryPayload, newId: CategoryId): (r: Step<Categories, Category>)
    requires newId !in cats
    ensures Text.IsBlank(p.name) <==> r.outcome.Err?
    ensures r.outcome.Err? ==> r.outcome.error == IllegalArgument(BlankCategoryName)
    ensures r.outcome.Err? ==> r.state == cats
    ensures r.outcome.Ok? ==>
      && p.name.Some?
      && r.outcome.value == Category(p.name.value, u)
      && r.state == cats[newId := r.outcome.value]
  {
    Service.Save(cats, newId, p, u)
  }

  /** `updateCategoria(id, categoriaDetails, userLogado)`: renames the
      category; nothing else about it changes. */
  function Rename(cats: Categories, u: UserId, id: CategoryId, p: CategoryPayload): (r: Step<Categories, Category>)
    ensures id !in cats <==> r.outcome == Err(Unclassified)
    ensures id in cats && cats[id].owner != u <==> r.outcome == Err(Forbidden)
    ensures id in cats && cats[id].owner == u ==>
      (Text.IsBlank(p.name) <==> r.outcome == Err(IllegalArgument(BlankCategoryName)))
    ensures r.outcome.Ok? <==> id in cats && cats[id].owner == u && !Text.IsBlank(p.name)
    ensures r.outcome.Err? ==> r.state == cats
    ensures r.outcome.Ok? ==>
      && id in cats
      && p.name.Some?
      && r.outcome.value == cats[id].(name := p.name.value)
      && r.state == cats[id := r.outcome.value]
  {
    match Service.FindById(cats, id)
    case None => Fail(cats, Unclassified)
    case Some(existing) =>
      if existing.owner != u then Fail(cats, Forbidden)
      else Service.Save(cats, id, CategoryPayload(p.name, Some(existing.owner)), u)
  }

  /** `deleteCategoria(id, userLogado)`. */
  function Remove(cats: Categories, u: UserId, id: CategoryId): (r: Step<Categories, ()>)
    ensures id !in cats <==> r.outcome == Err(Unclassified)
    ensures id in cats && cats[id].owner != u <==> r.outcome == Err(Forbidden)
    ensures r.outcome.Ok? <==> id in cats && cats[id].owner == u
    ensures r.outcome.Err? ==> r.state == cats
    ensures r.outcome.Ok? ==>
      && r.state.Keys == cats.Keys - {id}
      && forall k | k in r.state :: r.state[k] == cats[k]
  {
    match Service.FindById(cats, id)
    case None => Fail(cats, Unclassified)
    case Some(existing) =>
      if existing.owner != u then Fail(cats, Forbidden)
      else Step(Service.Delete(cats, id), Ok(()))
  }

  /** The single-category read applies no ownership check: every user sees
      the same answer. */
  lemma FetchIgnoresActingUser(cats: Categories, u: UserId, v: UserId, id: CategoryId)
    ensures FetchById(cats, u, id) == FetchById(cats, v, id)
  {
  }

  /** A rename never changes a category's owner. */
  lemma RenameKeepsOwners(cats: Categories, u: UserId, id: CategoryId, p: CategoryPayload)
    ensures var r := Rename(cats, u, id, p).state;
      r.Keys == cats.Keys && forall k | k in r :: r[k].owner == cats[k].owner
  {
  }

  /** Renaming keeps the store consistent. */
  lemma RenamePreservesConsistency(s: Store, u: UserId, id: CategoryId, p: CategoryPayload)
    requires Consistent(s)
    ensures Consistent(s.(categories := Rename(s.categories, u, id, p).state))
  {
    RenameKeepsOwners(s.categories, u, id, p);
  }

  /** Creating a category under an id no transaction refers to keeps the store
      consistent. */
  lemma CreatePreservesConsistency(s: Store, u: UserId, p: CategoryPayload, newId: CategoryId)
    requires newId !in s.categories && Unreferenced(s.transactions, newId)
    requires Consistent(s)
    ensures Consistent(s.(categories := Create(s.categories, u, p, newId).state))
  {
  }

  /** Removing a category keeps the store consistent. */
  lemma RemovePreservesConsistency(s: Store, u: UserId, id: CategoryId)
    requires Consistent(s)
    ensures Consistent(s.(categories := Remove(s.categories, u, id).state))
  {
  }
}

=== FILE: category_service.dfy ===
/** `CategoriaService`: the category table seen through the service. */
module CategoryService {

  import opened Results
  import opened Domain
  import Text

  /** `listar(user)`: the categories owned by `u`. */
  function List(cats: Categories, u: UserId): (r: Categories)
    ensures forall id :: id in r <==> id in cats && cats[id].owner == u
    ensures forall id | id in r :: r[id] == cats[id]
  {
    map id | id in cats && cats[id].owner == u :: cats[id]
  }

  /** `buscarPorId(id)`: a plain lookup, with no ownership filter. */
  function FindById(cats: Categories, id: CategoryId): (r: Option<Category>)
    ensures r.Some? <==> id in cats
    ensures r.Some? ==> r.value == cats[id]
  {
    if id in cats then Some(cats[id]) else None
  }

  /** `salvar(categoria, user)`: rejects a null or blank name, forces the owner
      to `u` whatever the payload said, and writes the row under `id`
      (`save` inserts or overwrites by id). */
  function Save(cats: Categories, id: CategoryId, p: CategoryPayload, u: UserId): (r: Step<Categories, Category>)
    ensures Text.IsBlank(p.name) <==> r.outcome == Err(IllegalArgument(BlankCategoryName))
    ensures r.outcome.Ok? <==> !Text.IsBlank(p.name)
    ensures r.outcome.Err? ==> r.state == cats
    ensures r.outcome.Ok? ==>
      && p.name.Some?
      && r.outcome.value == Category(p.name.value, u)
      && r.state.Keys == cats.Keys + {id}
      && r.state[id] == r.outcome.value
      && forall k | k in cats && k != id :: r.state[k] == cats[k]
  {
    if Text.IsBlank(p.name) then Fail(cats, IllegalArgument(BlankCategoryName))
    else
      var c := Category(p.name.value, u);
      Step(cats[id := c], Ok(c))
  }

  /** `deletar(id)`: removes that row, if any, and nothing else. */
  function Delete(cats: Categories, id: CategoryId): (r: Categories)
    ensures id !in r
    ensures r.Keys == cats.Keys - {id}
    ensures forall k | k in r :: r[k] == cats[k]
  {
    cats - {id}
  }

  /** `salvar`'s validation is Java's `nome == null || nome.trim().isEmpty()`. */
  lemma SaveRejectsNullOrTrimEmpty(cats: Categories, id: CategoryId, p: CategoryPayload, u: UserId)
    ensures Save(cats, id, p, u).outcome.Err? <==> p.name.None? || Text.Trim(p.name.value) == []
  {
    if p.name.Some? {
      Text.IsBlankIffTrimEmpty(p.name.value);
    }
  }

  /** `salvar` ignores the owner the payload carries. */
  lemma SaveIgnoresPayloadOwner(cats: Categories, id: CategoryId, p: CategoryPayload, q: CategoryPayload, u: UserId)
    requires p.name == q.name
    ensures Save(cats, id, p, u) == Save(cats, id, q, u)
  {
  }

  /** `salvar` keeps the store consistent as long as it does not take over a
      category that some other user owns: writing under an existing id of
      another owner would silently move that owner's transactions' category. */
  lemma SavePreservesConsistency(s: Store, id: CategoryId, p: CategoryPayload, u: UserId)
    requires Consistent(s)
    requires id in s.categories ==> s.categories[id].owner == u
    requires id !in s.categories ==> Unreferenced(s.transactions, id)
    ensures Consistent(s.(categories := Save(s.categories, id, p, u).state))
  {
  }

  /** `salvar` writes under whatever id it is given: saving under the id of a
      category another user owns re-owns that category to `u`. */
  lemma SaveTakesOverExistingId(cats: Categories, id: CategoryId, p: CategoryPayload, u: UserId)
    requires id in cats && cats[id].owner != u
    requires !Text.IsBlank(p.name)
    ensures var r := Save(cats, id, p, u);
      r.outcome.Ok? && id in r.state && r.state[id].owner == u && r.state[id].owner != cats[id].owner
  {
  }

  /** What a listing shows after a successful `salvar`: the saved row, with
      its new name, is listed for `u` and for nobody else, and every other
      user's listing is as it was apart from that id. */
  lemma ListAfterSave(cats: Categories, id: CategoryId, p: CategoryPayload, u: UserId, v: UserId)
    requires Save(cats, id, p, u).outcome.Ok?
    ensures var r := Save(cats, id, p, u);
      var l := List(r.state, v);
      && (v == u ==> id in l && l[id] == r.outcome.value)
      && (v != u ==> id !in l)
      && forall k | k != id :: (k in l <==> k in List(cats, v))
  {
  }

  /** Deleting a category never breaks the invariant (its transactions are
      left behind, no longer checked against it). */
  lemma DeletePreservesConsistency(s: Store, id: CategoryId)
    requires Consistent(s)
    ensures Consistent(s.(categories := Delete(s.categories, id)))
  {
  }
}

=== FILE: domain.dfy ===
/** The entities of the bookkeeping core and the store they live in.

    A `User` is reduced to its id. Records carry no id of their own: the
    repositories are modelled as finite maps from id to record, so a record's
    id is its key. Nullable Java fields are `Option`s. */
module Domain {

  import opened Results

  type UserId = int
  type CategoryId = int
  type TransactionId = int

  /** A calendar date, as a day number; the core only copies dates around. */
  type Date = int

  /** `TipoTransacao`: RECEITA (income) or DESPESA (expense). */
  datatype Kind = Income | Expense

  /** A stored `Categoria`: its name and its owning user. */
  datatype Category = Category(name: string, owner: UserId)

  /** A stored `Transacao`. The amount is a `BigDecimal`, modelled exactly as a
      `real`; the sign is carried by `kind`. `category` refers to the category
      store. */
  datatype Transaction = Transaction(
    description: Option<string>,
    amount: Option<real>,
    date: Option<Date>,
    kind: Option<Kind>,
    owner: UserId,
    category: CategoryId)

  /** A category object as a client sends it inside a transaction payload:
      only `id` is trusted, the rest is whatever the client wrote. */
  datatype CategoryRef = CategoryRef(id: CategoryId, name: Option<string>, owner: Option<UserId>)

  /** A `Transacao` request body. `owner` and the nested category's fields
      other than its id are client-supplied and never trusted. */
  datatype TransactionPayload = TransactionPayload(
    description: Option<string>,
    amount: Option<real>,
    date: Option<Date>,
    kind: Option<Kind>,
    owner: Option<UserId>,
    category: Option<CategoryRef>)

  /** A `Categoria` request body. */
  datatype CategoryPayload = CategoryPayload(name: Option<string>, owner: Option<UserId>)

  type Transactions = map<TransactionId, Transaction>
  type Categories = map<CategoryId, Category>

  /** The two tables the transaction and category operations work on. */
  datatype Store = Store(transactions: Transactions, categories: Categories)

  /** The cross-entity invariant: a transaction belongs to the owner of the
      category it refers to. A category removed from the store leaves its
      transactions behind (the source shows no cascade), so the rule is stated
      for the categories that are still present. */
  predicate Consistent(s: Store) {
    forall id | id in s.transactions && s.transactions[id].category in s.categories ::
      s.transactions[id].owner == s.categories[s.transactions[id].category].owner
  }

  /** No transaction refers to category id `c`: ids handed out by the
      database sequence are never reused. */
  predicate Unreferenced(txs: Transactions, c: CategoryId) {
    forall id | id in txs :: txs[id].category != c
  }
}

=== FILE: results.dfy ===
/** Error kinds and result wrappers shared by every operation of the model.

    The Java services signal failure by throwing; here every operation returns
    a `Step`: the store it leaves behind together with either a value or the
    kind of error that was raised. */
module Results {

  /** A value that may be absent: Java's `null` and `Optional.empty()`. */
  datatype Option<+T> = None | Some(value: T) {

    /** `Optional.orElse(default)` */
    function GetOr(default: T): (r: T)
      ensures Some? ==> r == value
      ensures None? ==> r == default
    {
      match this
      case Some(v) => v
      case None => default
    }
  }

  /** Why an `IllegalArgumentException` was raised. */
  datatype Reason =
    | BlankCategoryName   // CategoriaService.salvar
    | BlankUsername       // UserService.registrarNovoUsuario, first check
    | BlankPassword       // second check
    | UsernameTaken       // third check

  /** The kinds of failure the core can raise, by the exception (or response)
      the source produces:
      - NotFound: `ResourceNotFoundException`, or a 404 built by a controller;
      - Forbidden: `ResponseStatusException(FORBIDDEN)` or a 403 built by a
        controller;
      - IllegalArgument: `IllegalArgumentException`;
      - Unclassified: a plain `RuntimeException`.
      Which HTTP status each exception finally becomes is decided by the
      global exception handler and is not part of this model. */
  datatype Error =
    | NotFound
    | Forbidden
    | IllegalArgument(reason: Reason)
    | Unclassified

  datatype Result<+V> = Ok(value: V) | Err(error: Error)

  /** The state an operation leaves behind and what it returned. */
  datatype Step<+S, +V> = Step(state: S, outcome: Result<V>)

  /** A step that writes nothing and reports `e`. */
  function Fail<S, V>(s: S, e: Error): (r: Step<S, V>) {
    Step(s, Err(e))
  }
}

=== FILE: text.dfy ===
/** The blank-string test used by every validation in the core:
    `s == null || s.trim().isEmpty()`.

    Java's `String.trim` removes every leading and trailing character whose
    code point is at most U+0020 (space and the ASCII control characters). */
module Text {

  import opened Results

  /** A character `String.trim` strips. */
  predicate Trimmable(c: char) {
    c <= ' '
  }

  /** `s` without its leading trimmable characters. */
  function TrimStart(s: string): (r: string)
    ensures |r| <= |s| && r == s[|s| - |r|..]
    ensures forall i | 0 <= i < |s| - |r| :: Trimmable(s[i])
    ensures r == [] || !Trimmable(r[0])
  {
    if s == [] || !Trimmable(s[0]) then s else TrimStart(s[1..])
  }

  /** `s` without its trailing trimmable characters. */
  function TrimEnd(s: string): (r: string)
    ensures |r| <= |s| && r == s[..|r|]
    ensures forall i | |r| <= i < |s| :: Trimmable(s[i])
    ensures r == [] || !Trimmable(r[|r| - 1])
  {
    if s == [] || !Trimmable(s[|s| - 1]) then s else TrimEnd(s[..|s| - 1])
  }

  /** Java's `String.trim`: the contiguous slice of `s` left once every
      leading and trailing trimmable character is removed; it neither starts
      nor ends with a trimmable character. */
  function Trim(s: string): (r: string)
    ensures exists i, j | 0 <= i <= j <= |s| ::
      r == s[i..j] && AllTrimmable(s[..i]) && AllTrimmable(s[j..])
    ensures r == [] || (!Trimmable(r[0]) && !Trimmable(r[|r| - 1]))
  {
    var t := TrimStart(s);
    var r := TrimEnd(t);
    var i := |s| - |t|;
    assert r == s[i..i + |r|];
    assert AllTrimmable(s[..i]);
    assert AllTrimmable(s[i + |r|..]);
    r
  }

  /** Every character of `s` is one `trim` strips. */
  predicate AllTrimmable(s: string) {
    forall i | 0 <= i < |s| :: Trimmable(s[i])
  }

  /** `s == null || s.trim().isEmpty()`, stated on the characters: a present
      string is blank when `trim` would strip all of it
      (`IsBlankIffTrimEmpty`). */
  predicate IsBlank(s: Option<string>) {
    s.None? || AllTrimmable(s.value)
  }

  /** `trim` leaves nothing exactly when every character is trimmable. */
  lemma {:induction false} TrimEmptyIffAllTrimmable(s: string)
    ensures Trim(s) == [] <==> AllTrimmable(s)
  {
    var t := TrimStart(s);
    if !AllTrimmable(s) {
      var k :| 0 <= k < |s| && !Trimmable(s[k]);
      assert t[k - (|s| - |t|)] == s[k];
    }
  }

  /** The blank test is Java's `trim().isEmpty()` on a present string. */
  lemma IsBlankIffTrimEmpty(s: string)
    ensures IsBlank(Some(s)) <==> Trim(s) == []
  {
    TrimEmptyIffAllTrimmable(s);
  }
}

=== FILE: transaction_repository.dfy ===
/** `TransacaoRepository`: the queries the transaction service relies on,
    read as filters and sums over the transaction table. */
module TransactionRepository {

  import opened Results
  import opened Domain

  /** `findByUser(user)`: the rows owned by `u`. */
  function FindByUser(txs: Transactions, u: UserId): (r: Transactions)
    ensures r.Keys <= txs.Keys
    ensures forall id | id in txs :: id in r <==> txs[id].owner == u
    ensures forall id | id in r :: r[id] == txs[id]
  {
    map id | id in txs && txs[id].owner == u :: txs[id]
  }

  /** `findByIdAndUser(id, user)`: the row with that id, provided `u` owns it
      (`null` otherwise). */
  function FindByIdAndUser(txs: Transactions, id: TransactionId, u: UserId): (r: Option<Transaction>)
    ensures r.Some? <==> id in txs && txs[id].owner == u
    ensures r.Some? ==> r.value == txs[id]
  {
    if id in txs && txs[id].owner == u then Some(txs[id]) else None
  }

  /** A row enters `SUM(t.valor) ... WHERE t.tipo = :tipo AND t.user = :user`:
      it matches both filters and, as SQL's SUM skips NULLs, has an amount. */
  predicate Counts(t: Transaction, k: Kind, u: UserId) {
    t.kind == Some(k) && t.owner == u && t.amount.Some?
  }

  /** The amounts the query adds up, by row id. */
  function Contributions(txs: Transactions, k: Kind, u: UserId): (r: map<TransactionId, real>)
    ensures forall id | id in txs :: id in r <==> Counts(txs[id], k, u)
    ensures forall id | id in r :: id in txs && Counts(txs[id], k, u) && r[id] == txs[id].amount.value
  {
    map id | id in txs && Counts(txs[id], k, u) :: txs[id].amount.value
  }

  /** `k` is the smallest id in `ks`. */
  predicate IsLeast(k: TransactionId, ks: set<TransactionId>) {
    k in ks && forall j | j in ks :: k <= j
  }

  lemma LeastOfAdded(m: TransactionId, rest: set<TransactionId>, x: TransactionId)
    requires IsLeast(m, rest)
    ensures IsLeast(if m < x then m else x, rest + {x})
  {
  }

  lemma HasMember(ks: set<TransactionId>)
    requires ks != {}
    ensures exists y :: y in ks
  {
    if forall y :: y !in ks {
      assert false;
    }
  }

  /** A non-empty set of ids has a least element. */
  lemma {:induction false} LeastExists(ks: set<TransactionId>)
    requires ks != {}
    ensures exists k :: IsLeast(k, ks)
  {
    HasMember(ks);
    var x :| x in ks;
    if ks == {x} {
      assert IsLeast(x, ks);
    } else {
      var rest := ks - {x};
      LeastExists(rest);
      var m :| IsLeast(m, rest);
      LeastOfAdded(m, rest, x);
      assert rest + {x} == ks;
    }
  }

  /** The smallest id of a non-empty set (unique, so this is deterministic). */
  function Least(ks: set<TransactionId>): (k: TransactionId)
    requires ks != {}
    ensures IsLeast(k, ks)
  {
    LeastExists(ks);
    var k :| IsLeast(k, ks);
    k
  }

  /** The exact sum of the values of `m`, added in increasing key order. */
  function Total(m: map<TransactionId, real>): (r: real)
    decreases |m|
  {
    if m == map[] then 0.0
    else
      var k := Least(m.Keys);
      m[k] + Total(m - {k})
  }

  /** The order of addition does not matter: any entry can be taken out first. */
  lemma {:induction false} TotalRemove(m: map<TransactionId, real>, k: TransactionId)
    requires k in m
    ensures Total(m) == m[k] + Total(m - {k})
    decreases |m|
  {
    var k0 := Least(m.Keys);
    if k0 != k {
      assert (m - {k0}) - {k} == (m - {k}) - {k0};
      TotalRemove(m - {k0}, k);
      TotalRemove(m - {k}, k0);
    }
  }

  /** `sumValorByTipoAndUser(tipo, user)`: `Optional.empty()` when SQL's SUM
      yields NULL, i.e. when no row counts; otherwise the exact sum. */
  function SumByKindAndUser(txs: Transactions, k: Kind, u: UserId): (r: Option<real>)
    ensures r.None? <==> forall id | id in txs :: !Counts(txs[id], k, u)
  {
    var c := Contributions(txs, k, u);
    if c == map[] then None else Some(Total(c))
  }

  /** SQL's `NULL + x`: the running SUM after one more row. */
  function AddRow(sum: Option<real>, t: Transaction, k: Kind, u: UserId): (r: Option<real>) {
    if !Counts(t, k, u) then sum
    else match sum
      case None => Some(t.amount.value)
      case Some(v) => Some(v + t.amount.value)
  }

  /** What one row adds to the sum for kind `k` and user `u`. */
  function Contribution(t: Transaction, k: Kind, u: UserId): (r: real) {
    if Counts(t, k, u) then t.amount.value else 0.0
  }

  /** The sum with a missing result read as zero, as the balance reads it. */
  function SumOrZero(txs: Transactions, k: Kind, u: UserId): (r: real) {
    SumByKindAndUser(txs, k, u).GetOr(0.0)
  }

  /** Read as zero when absent, the sum changes by exactly the row's
      contribution when a row is added. */
  lemma SumOrZeroInsert(txs: Transactions, id: TransactionId, t: Transaction, k: Kind, u: UserId)
    requires id !in txs
    ensures SumOrZero(txs[id := t], k, u) == SumOrZero(txs, k, u) + Contribution(t, k, u)
  {
    SumInsert(txs, id, t, k, u);
  }

  /** Replacing a row changes the sum by the difference of the two rows'
      contributions. */
  lemma SumOrZeroReplace(txs: Transactions, id: TransactionId, t: Transaction, k: Kind, u: UserId)
    requires id in txs
    ensures SumOrZero(txs[id := t], k, u) ==
      SumOrZero(txs, k, u) - Contribution(txs[id], k, u) + Contribution(t, k, u)
  {
    var rest := txs - {id};
    assert rest[id := txs[id]] == txs;
    assert rest[id := t] == txs[id := t];
    SumOrZeroInsert(rest, id, txs[id], k, u);
    SumOrZeroInsert(rest, id, t, k, u);
  }

  /** The sum over an empty table is absent. */
  lemma SumEmpty(k: Kind, u: UserId)
    ensures SumByKindAndUser(map[], k, u) == None
  {
  }

  /** Adding a row changes the sum exactly by that row's contribution: the
      query's result is the SUM of the matching amounts and nothing else. */
  lemma SumInsert(txs: Transactions, id: TransactionId, t: Transaction, k: Kind, u: UserId)
    requires id !in txs
    ensures SumByKindAndUser(txs[id := t], k, u) == AddRow(SumByKindAndUser(txs, k, u), t, k, u)
  {
    var before := Contributions(txs, k, u);
    var after := Contributions(txs[id := t], k, u);
    if Counts(t, k, u) {
      assert after - {id} == before;
      TotalRemove(after, id);
    } else {
      assert after == before;
    }
  }

  /** Rows of other users, of the other kind, or without an amount never
      change the sum. */
  lemma SumIgnoresOthers(txs: Transactions, id: TransactionId, t: Transaction, k: Kind, u: UserId)
    requires !Counts(t, k, u)
    ensures SumByKindAndUser(txs[id := t], k, u) == SumByKindAndUser(txs - {id}, k, u)
  {
    assert Contributions(txs[id := t], k, u) == Contributions(txs - {id}, k, u);
  }

  /** The sum for `u` sees only `u`'s own rows. */
  lemma SumOnlyOwnRows(txs: Transactions, k: Kind, u: UserId)
    ensures SumByKindAndUser(txs, k, u) == SumByKindAndUser(FindByUser(txs, u), k, u)
  {
    assert Contributions(txs, k, u) == Contributions(FindByUser(txs, u), k, u);
  }

  /** `findByIdAndUser` is `findByUser` followed by a lookup. */
  lemma FindByIdAndUserIsOwnedLookup(txs: Transactions, id: TransactionId, u: UserId)
    ensures FindByIdAndUser(txs, id, u) == (if id in FindByUser(txs, u) then Some(FindByUser(txs, u)[id]) else None)
  {
  }
}

=== FILE: transaction_service.dfy ===
/** `TransacaoService`: creating, updating, deleting and listing one user's
    transactions, and the per-user balance.

    Every guard runs in the source's order: the referenced record must exist
    (NotFound), then the acting user must own it (Forbidden), and only then is
    anything written. A failing operation leaves the store as it was. */
module TransactionService {

  import opened Results
  import opened Domain
  import Repo = TransactionRepository

  /** `listarPorUsuario`: the acting user's transactions. */
  function ListByUser(s: Store, u: UserId): (r: Transactions)
    ensures forall id :: id in r <==> id in s.transactions && s.transactions[id].owner == u
    ensures forall id | id in r :: r[id] == s.transactions[id]
  {
    Repo.FindByUser(s.transactions, u)
  }

  /** The record `criar` stores: the payload's description, amount, date and
      kind, with the owner forced to the acting user and the category replaced
      by the stored one (only the payload category's id is read). */
  function NewRecord(p: TransactionPayload, u: UserId, c: CategoryId): (t: Transaction) {
    Transaction(p.description, p.amount, p.date, p.kind, u, c)
  }

  /** `criar(transacao, userLogado)`. `newId` is the id the database assigns;
      the source dereferences the payload's category id, so a payload without
      a category is not a valid call. */
  function Create(s: Store, u: UserId, p: TransactionPayload, newId: TransactionId): (r: Step<Store, TransactionId>)
    requires p.category.Some?
    requires newId !in s.transactions
    ensures p.category.value.id !in s.categories <==> r.outcome == Err(NotFound)
    ensures r.outcome == Err(Forbidden) <==>
      p.category.value.id in s.categories && s.categories[p.category.value.id].owner != u
    ensures r.outcome.Ok? <==>
      p.category.value.id in s.categories && s.categories[p.category.value.id].owner == u
    ensures r.outcome.Err? ==> r.state == s
    ensures r.outcome.Ok? ==>
      var c := p.category.value.id;
      && r.outcome.value == newId
      && c in s.categories && s.categories[c].owner == u
      && r.state.categories == s.categories
      && r.state.transactions.Keys == s.transactions.Keys + {newId}
      && (forall id | id in s.transactions :: r.state.transactions[id] == s.transactions[id])
      && r.state.transactions[newId] == NewRecord(p, u, c)
  {
    var c := p.category.value.id;
    if c !in s.categories then Fail(s, NotFound)
    else if s.categories[c].owner != u then Fail(s, Forbidden)
    else Step(s.(transactions := s.transactions[newId := NewRecord(p, u, c)]), Ok(newId))
  }

  /** The category a transaction ends up with after `atualizar`: the current
      one unless the payload names a different id. */
  function TargetCategory(existing: Transaction, p: TransactionPayload): (c: CategoryId) {
    if ChangesCategory(existing, p) then p.category.value.id else existing.category
  }

  /** The payload names a category other than the transaction's current one,
      so `atualizar` must look it up. */
  predicate ChangesCategory(existing: Transaction, p: TransactionPayload) {
    p.category.Some? && p.category.value.id != existing.category
  }

  /** `atualizar(id, transacaoDetails, userLogado)`: full replace of
      description, amount, date and kind (absent values included), optional
      move to another of the user's categories, owner untouched. */
  function Update(s: Store, u: UserId, id: TransactionId, p: TransactionPayload): (r: Step<Store, Transaction>)
    ensures id !in s.transactions ==> r.outcome == Err(NotFound)
    ensures id in s.transactions && s.transactions[id].owner != u ==> r.outcome == Err(Forbidden)
    ensures r.outcome.Ok? <==>
      && id in s.transactions && s.transactions[id].owner == u
      && (ChangesCategory(s.transactions[id], p) ==>
            p.category.value.id in s.categories && s.categories[p.category.value.id].owner == u)
    ensures r.outcome.Err? ==> r.state == s
    ensures id in s.transactions && s.transactions[id].owner == u && ChangesCategory(s.transactions[id], p) ==>
      (p.category.value.id !in s.categories <==> r.outcome == Err(NotFound))
      && (p.category.value.id in s.categories && s.categories[p.category.value.id].owner != u <==>
          r.outcome == Err(Forbidden))
    ensures r.outcome.Ok? ==>
      && id in s.transactions
      && var before := s.transactions[id];
      && var t := r.outcome.value;
      && before.owner == u
      && t == Transaction(p.description, p.amount, p.date, p.kind, before.owner, t.category)
      && (t.category == before.category || (t.category in s.categories && s.categories[t.category].owner == u))
      && (p.category.Some? ==> t.category == p.category.value.id)
      && (p.category.None? ==> t.category == before.category)
      && r.state == s.(transactions := s.transactions[id := t])
  {
    if id !in s.transactions then Fail(s, NotFound)
    else
      var existing := s.transactions[id];
      if existing.owner != u then Fail(s, Forbidden)
      else if ChangesCategory(existing, p) && p.category.value.id !in s.categories then Fail(s, NotFound)
      else if ChangesCategory(existing, p) && s.categories[p.category.value.id].owner != u then Fail(s, Forbidden)
      else
        var updated := existing.(
          category := TargetCategory(existing, p),
          description := p.description,
          amount := p.amount,
          date := p.date,
          kind := p.kind);
        Step(s.(transactions := s.transactions[id := updated]), Ok(updated))
  }

  /** `deletar(id, userLogado)`. */
  function Delete(s: Store, u: UserId, id: TransactionId): (r: Step<Store, ()>)
    ensures id !in s.transactions <==> r.outcome == Err(NotFound)
    ensures id in s.transactions && s.transactions[id].owner != u <==> r.outcome == Err(Forbidden)
    ensures r.outcome.Ok? <==> id in s.transactions && s.transactions[id].owner == u
    ensures r.outcome.Err? ==> r.state == s
    ensures r.outcome.Ok? ==>
      && r.state.categories == s.categories
      && r.state.transactions.Keys == s.transactions.Keys - {id}
      && forall k | k in r.state.transactions :: r.state.transactions[k] == s.transactions[k]
  {
    if id !in s.transactions then Fail(s, NotFound)
    else if s.transactions[id].owner != u then Fail(s, Forbidden)
    else Step(s.(transactions := s.transactions - {id}), Ok(()))
  }

  /** `SaldoDTO`: total income, total expense, and their difference. */
  datatype Balance = Balance(income: real, expense: real, net: real)

  /** `getSaldoPorUsuario(userLogado)`: a missing per-kind sum counts as zero. */
  function GetBalance(txs: Transactions, u: UserId): (r: Balance)
    ensures r.net == r.income - r.expense
    ensures (forall id | id in txs :: txs[id].owner != u) ==> r == Balance(0.0, 0.0, 0.0)
  {
    var income := Repo.SumByKindAndUser(txs, Income, u).GetOr(0.0);
    var expense := Repo.SumByKindAndUser(txs, Expense, u).GetOr(0.0);
    Balance(income, expense, income - expense)
  }

  /** What a row adds to `u`'s income minus expense. */
  function NetContribution(t: Transaction, u: UserId): (r: real) {
    Repo.Contribution(t, Income, u) - Repo.Contribution(t, Expense, u)
  }

  // ---------------------------------------------------------------------------
  // Properties relating several operations
  // ---------------------------------------------------------------------------

  /** `criar` trusts nothing of the payload but the category id: the
      client-supplied owner and the nested category's other fields never
      reach the store or the outcome. */
  lemma CreateIgnoresSpoofedFields(s: Store, u: UserId, p: TransactionPayload, q: TransactionPayload, newId: TransactionId)
    requires p.category.Some? && q.category.Some? && newId !in s.transactions
    requires p.category.value.id == q.category.value.id
    requires p.(owner := None, category := None) == q.(owner := None, category := None)
    ensures Create(s, u, p, newId) == Create(s, u, q, newId)
  {
    assert NewRecord(p, u, p.category.value.id) == NewRecord(q, u, q.category.value.id);
  }

  /** A created transaction belongs to the owner of its category, so `criar`
      keeps the store consistent. */
  lemma CreatePreservesConsistency(s: Store, u: UserId, p: TransactionPayload, newId: TransactionId)
    requires p.category.Some? && newId !in s.transactions
    requires Consistent(s)
    ensures Consistent(Create(s, u, p, newId).state)
  {
  }

  /** `atualizar` keeps the owner and only moves a transaction to a category
      of that owner, so it keeps the store consistent. */
  lemma UpdatePreservesConsistency(s: Store, u: UserId, id: TransactionId, p: TransactionPayload)
    requires Consistent(s)
    ensures Consistent(Update(s, u, id, p).state)
  {
    var r := Update(s, u, id, p);
    if r.outcome.Ok? {
      var t := r.outcome.value;
      forall k | k in r.state.transactions && r.state.transactions[k].category in r.state.categories
        ensures r.state.transactions[k].owner == r.state.categories[r.state.transactions[k].category].owner
      {
        if k != id {
          assert r.state.transactions[k] == s.transactions[k];
        }
      }
    }
  }

  /** Removing a transaction cannot break the invariant. */
  lemma DeletePreservesConsistency(s: Store, u: UserId, id: TransactionId)
    requires Consistent(s)
    ensures Consistent(Delete(s, u, id).state)
  {
  }

  /** When the payload keeps the current category (or names none), `atualizar`
      performs no category lookup: its result does not depend on the category
      table at all, even if the current category has since been removed. */
  lemma UpdateKeepingCategoryNeedsNoLookup(txs: Transactions, c1: Categories, c2: Categories, u: UserId, id: TransactionId, p: TransactionPayload)
    requires id in txs && !ChangesCategory(txs[id], p)
    ensures Update(Store(txs, c1), u, id, p).outcome == Update(Store(txs, c2), u, id, p).outcome
    ensures Update(Store(txs, c1), u, id, p).state.transactions == Update(Store(txs, c2), u, id, p).state.transactions
  {
  }

  /** A failed update, whatever the reason, leaves the stored record exactly
      as a subsequent read would have found it before: a direct consequence
      of `Update`'s own "no write on failure" clause, stated per record. */
  lemma FailedUpdateLeavesRecord(s: Store, u: UserId, id: TransactionId, p: TransactionPayload)
    requires Update(s, u, id, p).outcome.Err?
    ensures id in s.transactions ==> Update(s, u, id, p).state.transactions[id] == s.transactions[id]
  {
  }

  /** The balance is computed from the user's own rows only. */
  lemma BalanceOnlyOwnRows(txs: Transactions, u: UserId)
    ensures GetBalance(txs, u) == GetBalance(Repo.FindByUser(txs, u), u)
  {
    Repo.SumOnlyOwnRows(txs, Income, u);
    Repo.SumOnlyOwnRows(txs, Expense, u);
  }

  /** After a successful `criar`, every user's balance moves by exactly what
      the new row contributes: the creator's by its signed amount, everyone
      else's not at all. */
  lemma BalanceAfterCreate(s: Store, u: UserId, p: TransactionPayload, newId: TransactionId, v: UserId)
    requires p.category.Some? && newId !in s.transactions
    requires Create(s, u, p, newId).outcome.Ok?
    ensures var t := NewRecord(p, u, p.category.value.id);
      var b := GetBalance(s.transactions, v);
      var b' := GetBalance(Create(s, u, p, newId).state.transactions, v);
      && b'.income == b.income + Repo.Contribution(t, Income, v)
      && b'.expense == b.expense + Repo.Contribution(t, Expense, v)
      && b'.net == b.net + NetContribution(t, v)
      && (v != u ==> b' == b)
  {
    var t := NewRecord(p, u, p.category.value.id);
    Repo.SumOrZeroInsert(s.transactions, newId, t, Income, v);
    Repo.SumOrZeroInsert(s.transactions, newId, t, Expense, v);
  }

  /** After a successful `atualizar`, the balance moves by the difference
      between the new and the old row. */
  lemma BalanceAfterUpdate(s: Store, u: UserId, id: TransactionId, p: TransactionPayload, v: UserId)
    requires Update(s, u, id, p).outcome.Ok?
    ensures id in s.transactions
    ensures var t := Update(s, u, id, p).outcome.value;
      var b := GetBalance(s.transactions, v);
      var b' := GetBalance(Update(s, u, id, p).state.transactions, v);
      && b'.income == b.income - Repo.Contribution(s.transactions[id], Income, v) + Repo.Contribution(t, Income, v)
      && b'.expense == b.expense - Repo.Contribution(s.transactions[id], Expense, v) + Repo.Contribution(t, Expense, v)
      && b'.net == b.net - NetContribution(s.transactions[id], v) + NetContribution(t, v)
  {
    var t := Update(s, u, id, p).outcome.value;
    Repo.SumOrZeroReplace(s.transactions, id, t, Income, v);
    Repo.SumOrZeroReplace(s.transactions, id, t, Expense, v);
  }

  /** After a successful `deletar`, the balance loses exactly what the removed
      row contributed. */
  lemma BalanceAfterDelete(s: Store, u: UserId, id: TransactionId, v: UserId)
    requires Delete(s, u, id).outcome.Ok?
    ensures id in s.transactions
    ensures var t := s.transactions[id];
      var b := GetBalance(s.transactions, v);
      var b' := GetBalance(Delete(s, u, id).state.transactions, v);
      && b'.income == b.income - Repo.Contribution(t, Income, v)
      && b'.expense == b.expense - Repo.Contribution(t, Expense, v)
      && b'.net == b.net - NetContribution(t, v)
  {
    var rest := s.transactions - {id};
    assert rest[id := s.transactions[id]] == s.transactions;
    Repo.SumOrZeroInsert(rest, id, s.transactions[id], Income, v);
    Repo.SumOrZeroInsert(rest, id, s.transactions[id], Expense, v);
  }

  /** A user with one income of 7000.00 and one expense of 2500.50 has a net
      balance of exactly 4499.50. */
  lemma BalanceExample(u: UserId, c: CategoryId)
    ensures var txs := map[
        1 := Transaction(None, Some(7000.00), None, Some(Income), u, c),
        2 := Transaction(None, Some(2500.50), None, Some(Expense), u, c)];
      GetBalance(txs, u) == Balance(7000.00, 2500.50, 4499.50)
  {
    var income := Transaction(None, Some(7000.00), None, Some(Income), u, c);
    var expense := Transaction(None, Some(2500.50), None, Some(Expense), u, c);
    var txs := map[1 := income, 2 := expense];
    assert txs == map[1 := income][2 := expense];
    assert map[1 := income] == map[][1 := income];
    Repo.SumOrZeroInsert(map[], 1, income, Income, u);
    Repo.SumOrZeroInsert(map[], 1, income, Expense, u);
    Repo.SumOrZeroInsert(map[1 := income], 2, expense, Income, u);
    Repo.SumOrZeroInsert(map[1 := income], 2, expense, Expense, u);
  }
}

=== FILE: user_service.dfy ===
/** `UserService.registrarNovoUsuario`: validation, username uniqueness and
    the new account. The password encoder is a parameter: the model assumes
    nothing about it. */
module UserService {

  import opened Results
  import opened Domain
  import Text

  /** A stored `User`: its username and its encoded password. */
  datatype Account = Account(username: string, password: string)

  type Accounts = map<UserId, Account>

  /** `findByUsername(username).isPresent()`: exact comparison, no trimming. */
  predicate UsernameInUse(users: Accounts, name: string) {
    exists id | id in users :: users[id].username == name
  }

  /** No two accounts share a username. */
  predicate UsernamesDistinct(users: Accounts) {
    forall a, b | a in users && b in users && a != b :: users[a].username != users[b].username
  }

  /** `registrarNovoUsuario(username, rawPassword)`. `newId` is the id the
      database assigns; `encode` is the password encoder. */
  function Register(users: Accounts, username: Option<string>, rawPassword: Option<string>,
                    encode: string -> string, newId: UserId): (r: Step<Accounts, UserId>)
    requires newId !in users
    ensures Text.IsBlank(username) ==> r.outcome == Err(IllegalArgument(BlankUsername))
    ensures !Text.IsBlank(username) && Text.IsBlank(rawPassword) ==>
      r.outcome == Err(IllegalArgument(BlankPassword))
    ensures !Text.IsBlank(username) && !Text.IsBlank(rawPassword) ==>
      (UsernameInUse(users, username.value) <==> r.outcome == Err(IllegalArgument(UsernameTaken)))
    ensures r.outcome.Ok? <==>
      !Text.IsBlank(username) && !Text.IsBlank(rawPassword) && !UsernameInUse(users, username.value)
    ensures r.outcome.Err? ==> r.state == users
    ensures r.outcome.Ok? ==>
      && username.Some? && rawPassword.Some?
      && !UsernameInUse(users, username.value)
      && r.outcome.value == newId
      && r.state == users[newId := Account(username.value, encode(rawPassword.value))]
  {
    if Text.IsBlank(username) then Fail(users, IllegalArgument(BlankUsername))
    else if Text.IsBlank(rawPassword) then Fail(users, IllegalArgument(BlankPassword))
    else if UsernameInUse(users, username.value) then Fail(users, IllegalArgument(UsernameTaken))
    else Step(users[newId := Account(username.value, encode(rawPassword.value))], Ok(newId))
  }

  /** Registration succeeds exactly when both fields are non-blank and the
      username is free. */
  lemma RegisterSucceedsIff(users: Accounts, username: Option<string>, rawPassword: Option<string>,
                            encode: string -> string, newId: UserId)
    requires newId !in users
    ensures Register(users, username, rawPassword, encode, newId).outcome.Ok? <==>
      && username.Some? && Text.Trim(username.value) != []
      && rawPassword.Some? && Text.Trim(rawPassword.value) != []
      && !UsernameInUse(users, username.value)
  {
    if username.Some? {
      Text.IsBlankIffTrimEmpty(username.value);
    }
    if rawPassword.Some? {
      Text.IsBlankIffTrimEmpty(rawPassword.value);
    }
  }

  /** Registration keeps usernames pairwise distinct. */
  lemma RegisterKeepsUsernamesDistinct(users: Accounts, username: Option<string>, rawPassword: Option<string>,
                                       encode: string -> string, newId: UserId)
    requires newId !in users
    requires UsernamesDistinct(users)
    ensures UsernamesDistinct(Register(users, username, rawPassword, encode, newId).state)
  {
    var r := Register(users, username, rawPassword, encode, newId);
    if r.outcome.Ok? {
      forall a, b | a in r.state && b in r.state && a != b
        ensures r.state[a].username != r.state[b].username
      {
        if a == newId {
          assert b in users;
        } else if b == newId {
          assert a in users;
        }
      }
    }
  }
}
